=== FILE: README.md ===
# Reviews screen: paginated list and avatar loader

A Dafny model of the logic behind the reviews screen of the TestVK iOS app. It has two parts.

- **`ReviewsViewModel`** (module `ReviewsScreen`, class `ReviewsViewModel`). This is the list state machine. Its `state` holds:
  - the review items;
  - the offset of the next page;
  - the page size (`limit`);
  - the `shouldLoad` flag;
  - an optional footer carrying a review count.

  `getReviews` requests the next page, unless loading is off. In that case it only creates the footer. `gotReviews` merges a provider answer. `refreshReviews` asks the provider again and resets the list when the answer arrives. `showMoreReview` and `processedImageLoaded` update one item, found by id. The table data source shows one row per item, plus an extra footer/blank row while loading is off.
- **`ImageLoader`** (module `Images`). This is the avatar loader. It has a URL-keyed image cache. A fetch first delivers the cached image, if there is one. It then always runs the network request and classifies the outcome. The result is either an image, stored in the cache, or one of `downloadingError`, `loadingError` and `convertingError`.

Each asynchronous step of the app is one atomic method, and the steps can interleave in any order the app allows:
- `GetReviews` and `RefreshReviews` issue a provider request, recorded in `pageFetches`.
- `GetReviewsCompleted` and `RefreshReviewsCompleted` are the provider's completions. The provider's answer, or its failure, is a `PageResult` parameter.
- An avatar load goes through three steps, as `asyncFetchImage` does:
  - `makeReviewItem` records the load in `awaitingLookup`.
  - `AvatarLookup` is the loader's background block. It reads the cache as it stands at that moment, queues the cached image for the main queue if there is one, and starts the data task, recorded in `awaitingAnswer`.
  - `AvatarResponse` is the data task's handler. It classifies the answer, stores a decoded image in the cache, and queues the outcome for the main queue. The answer (`Response`) and `UIImage(data:)` (`decode`) are parameters.
  - `DeliverNext` is the main queue running the oldest queued completion (`deliveries`, first in, first out) through `updateAvatarImage`'s handler.
- `stateChanges` counts the calls to `onStateChange`.
- `UUID()` is a fresh-id counter, `nextId`.

The object invariant `Valid()` says:
- the page size is positive and the offset is not negative;
- item ids are distinct;
- every item id is below `nextId`;
- every avatar load, at either stage, and every queued avatar completion targets an id below `nextId`.

So an avatar load that was started before a refresh can never match an item created after it.

`scenarios.dfy` drives the model through runs of the app, using only the methods' contracts. It covers:
- three pages of 20 out of 45 reviews;
- a failed page followed by a retry;
- a second `getReviews` while loading;
- a refresh;
- a refresh racing an outstanding load;
- an avatar arriving;
- two records sharing an avatar URL;
- a cache hit that is still fetched.

Behaviour of the code worth knowing:
- **Refresh timing.** `refreshReviews` requests the page at the *current* offset. It resets the list only inside the completion (Test/Screens/Reviews/ReviewsViewModel.swift:62-70). It does not reset first and then fetch offset 0.
- **Final offset.** The offset always grows by `limit`. After pages of 20, 20 and 5 out of 45 reviews, it is 60, not 45.
- **Cache hits.** A cache hit does not skip the network. The fetch runs anyway, so completion may be called twice. The cache is read when the background block runs, not when the answer arrives, so two loads of one URL that both start before either answer is stored both miss (`SharedUrlScenario`).
- **Footer.** The footer is created by a `getReviews` call made while loading is off. This also happens while a page is still loading. It is not created when the last page arrives.
- **Loads in flight.** At most one `getReviews` request is in flight only as long as no refresh completes in between. A refresh that completes while a load is outstanding turns loading back on. A second load then goes out, and the stale answer is appended to the refreshed list (`RefreshRaceScenario`).

## Model

| member | source | states |
|---|---|---|
| `Images.Classify` | Test/Screens/Reviews/ImagesLoader.swift:38-61 | A fetch reports exactly one outcome, and the checks run in this order: missing data, a non-HTTP response or an error gives `DownloadingError`; otherwise a status outside 200..<300 gives `LoadingError`; otherwise bytes that do not decode give `ConvertingError`. Success means all three checks passed and carries the decoded image. |
| `Images.FetchCompletions` | Test/Screens/Reviews/ImagesLoader.swift:28-68 | One call delivers two completions when the URL's key is cached (first the cached image, then the network outcome) and one completion otherwise. The network outcome always comes last. |
| `Images.CacheAfterFetch` | Test/Screens/Reviews/ImagesLoader.swift:39-63 | A failed fetch leaves the cache unchanged. A successful one stores its image under `url.absoluteString`, and every other key keeps its entry. |
| `Images.ImageLoader.constructor` | Test/Screens/Reviews/ImagesLoader.swift:22 | A new loader starts with an empty cache. |
| `Images.ImageLoader.GetImageData` | Test/Screens/Reviews/ImagesLoader.swift:75-77 | Returns an image exactly when the key is cached, and that image is the cached one. |
| `Images.ImageLoader.SetImageData` | Test/Screens/Reviews/ImagesLoader.swift:80-82 | The cache afterwards maps the key to the image. Other keys are untouched. |
| `Images.ImageLoader.HandleResponse` | Test/Screens/Reviews/ImagesLoader.swift:38-67 | The data task's handler reports exactly `Classify` of the answer and leaves the cache as `CacheAfterFetch`, so a decoded image is stored before `.success` is reported. |
| `Images.ImageLoader.AsyncFetchImage` | Test/Screens/Reviews/ImagesLoader.swift:28-70 | When nothing touches the cache between the lookup and the answer, one call delivers exactly `FetchCompletions`, including the missing return after a cache hit, and leaves the cache as `CacheAfterFetch`. |
| `Images.StoredImageServedNext` | Test/Screens/Reviews/ImagesLoader.swift:32-67 | After a successful fetch, the next fetch of the same URL first delivers the stored image and then its own network outcome. |
| `ReviewsScreen.MakeReviewItem` | Test/Screens/Reviews/ReviewsViewModel.swift:128-143 | A new item has the fresh id it was given, the placeholder avatar and the default line limit. It keeps the record's text and creation time. Its full name is the first name, one space, then the last name. Its rating image renders the record's rating, and it has no attached images. |
| `ReviewsScreen.AvatarUrl` | Test/Screens/Reviews/ReviewsViewModel.swift:144-147 | A record has an avatar URL exactly when its avatar URL string is present and `URL(string:)` accepts it, and then it is the parsed URL. |
| `ReviewsScreen.MapReviews` | Test/Screens/Reviews/ReviewsViewModel.swift:85 | A page maps to one item per record, in record order. Record `i` becomes item `i`, under fresh id `firstId + i`. |
| `ReviewsScreen.AvatarFetches` | Test/Screens/Reviews/ReviewsViewModel.swift:144-149 | Mapping a page starts at most one avatar load per record: every load's id is the item id of one of the page's records, and the ids strictly increase, so the loads are in record order with no record twice. |
| `ReviewsScreen.AvatarFetchesSound` | Test/Screens/Reviews/ReviewsViewModel.swift:144-149 | Every avatar load started for a page belongs to one of its records: that record has an avatar URL string, the string parses, and the load uses the parsed URL. |
| `ReviewsScreen.AvatarFetchesComplete` | Test/Screens/Reviews/ReviewsViewModel.swift:144-149 | Every record whose avatar URL is present and parses gets an avatar load for its own item. |
| `ReviewsScreen.FirstIndexOf` | Test/Screens/Reviews/ReviewsViewModel.swift:101 | Finds the first item with the id, or reports that no item has it. |
| `ReviewsScreen.ExpandText` | Test/Screens/Reviews/ReviewsViewModel.swift:99-107 | Only the first item with the id changes, and only its `maxLines`, which becomes 0. An unknown id leaves the list as it was. Ids and length are preserved. |
| `ReviewsScreen.SetAvatar` | Test/Screens/Reviews/ReviewsViewModel.swift:111-119 | Only the first item with the id changes, and only its avatar image. An unknown id leaves the list as it was. Ids and length are preserved. |
| `ReviewsScreen.ApplyCompletion` | Test/Screens/Reviews/ReviewsViewModel.swift:155-163 | One avatar completion: a success sets the avatar of the first item with that id to the loaded image and changes nothing else. A failure, or an id that is not listed, leaves the list as it was. Ids are preserved. |
| `ReviewsScreen.DeliverAvatar` | Test/Screens/Reviews/ReviewsViewModel.swift:155-163 | The main queue running several queued avatar completions in order keeps the ids. Completions that all failed leave the list untouched. An item that no successful completion names never changes. |
| `ReviewsScreen.DeliverAvatarSnoc` | Test/Screens/Reviews/ReviewsViewModel.swift:155-163 | Running one more queued completion after a sequence of them is `ApplyCompletion` on the list they left, so the fold is `DeliverNext` run once per queued completion. |
| `ReviewsScreen.LastSuccessShown` | Test/Screens/Reviews/ReviewsViewModel.swift:155-163 | A successful completion for a listed id, with no later success for that id, leaves the first item with that id showing its image. |
| `ReviewsScreen.LookupSeesOnlyIds` | Test/Screens/Reviews/ReviewsViewModel.swift:99-119 | A lookup by id gives the same answer on any two lists with the same ids in the same places. So expanding a text or setting an avatar changes no later lookup. |
| `ReviewsScreen.ExpandTextIdempotent` | Test/Screens/Reviews/ReviewsViewModel.swift:99-107 | `showMoreReview` is idempotent. |
| `ReviewsScreen.StaleAvatarIgnored` | Test/Screens/Reviews/ReviewsViewModel.swift:111-119 | Queued avatar completions whose ids are not listed change nothing, whether they succeed or fail. |
| `ReviewsScreen.AppendPageKeepsIdsFresh` | Test/Screens/Reviews/ReviewsViewModel.swift:85 | Appending a mapped page keeps all ids distinct and below the advanced counter. The new items' ids are at least the old counter. |
| `ReviewsScreen.ReviewsViewModel.constructor` | Test/Screens/Reviews/ReviewsViewModel.swift:15-25 | Starts with the given offset, page size, loading flag and footer. There are no items, nothing in flight, an empty image cache and no notifications. |
| `ReviewsScreen.ReviewsViewModel.GetReviews` | Test/Screens/Reviews/ReviewsViewModel.swift:36-54 | With loading on: loading turns off and one request for the current offset is issued. With loading off: nothing is requested, and only a missing footer is created, counting the items. An existing footer is never overwritten. Items, offset and notifications are unchanged. It preserves "at most one load in flight, and none while loading is on". |
| `ReviewsScreen.ReviewsViewModel.RefreshReviews` | Test/Screens/Reviews/ReviewsViewModel.swift:57-62 | Issues one request at the pre-refresh offset. Items, offset, `shouldLoad` and footer are not touched. |
| `ReviewsScreen.ReviewsViewModel.GotReviews` | Test/Screens/Reviews/ReviewsViewModel.swift:81-95 | On a page: the items become the old items followed by the mapped records; the offset grows by exactly `limit`; `shouldLoad` becomes offset < count; one avatar load is added per parseable avatar URL. On a failure: items and offset are unchanged and `shouldLoad` becomes true. Either way `onStateChange` fires once. |
| `ReviewsScreen.ReviewsViewModel.GetReviewsCompleted` | Test/Screens/Reviews/ReviewsViewModel.swift:50-52 | The `getReviews` request leaves the in-flight set, so the number of loads in flight drops by one, and its answer is merged as by `GotReviews`. If it was the only load in flight, none is in flight after it. |
| `ReviewsScreen.ReviewsViewModel.RefreshReviewsCompleted` | Test/Screens/Reviews/ReviewsViewModel.swift:62-71 | The answer is merged into a list reset to offset 0, no items and no footer. On success the items are exactly that page and the offset is `limit`. On failure there are no items and the offset is 0. No avatar load started before the reset can find an item, whether it waits for its lookup, for its answer, or for the main queue. |
| `ReviewsScreen.ReviewsViewModel.ResetList` | Test/Screens/Reviews/ReviewsViewModel.swift:65-68 | Offset 0, no items, no footer, loading on. Ids and pending loads are unchanged. |
| `ReviewsScreen.ReviewsViewModel.ShowMoreReview` | Test/Screens/Reviews/ReviewsViewModel.swift:99-107 | The items become `ExpandText` of the old items. It notifies exactly when the id is listed. The rest of the state is unchanged. |
| `ReviewsScreen.ReviewsViewModel.ProcessedImageLoaded` | Test/Screens/Reviews/ReviewsViewModel.swift:111-119 | The items become `SetAvatar` of the old items. It notifies exactly when the id is listed. The rest of the state is unchanged. |
| `ReviewsScreen.ReviewsViewModel.AvatarCompletion` | Test/Screens/Reviews/ReviewsViewModel.swift:155-163 | A success sets the avatar of a listed item and notifies. A failure changes nothing. |
| `ReviewsScreen.ReviewsViewModel.AvatarLookup` | Test/Screens/Reviews/ImagesLoader.swift:29-38 | The load moves from waiting for its lookup to waiting for its answer. A cached image for its URL, as the cache is at this moment, is queued for the main queue; otherwise nothing is queued. The list and the notifications are unchanged. |
| `ReviewsScreen.ReviewsViewModel.AvatarResponse` | Test/Screens/Reviews/ImagesLoader.swift:38-67 | The load leaves the set waiting for an answer. The cache changes as `CacheAfterFetch`, and `Classify` of the answer is queued for the main queue. The list and the notifications are unchanged. |
| `ReviewsScreen.ReviewsViewModel.DeliverNext` | Test/Screens/Reviews/ReviewsViewModel.swift:155-163 | The oldest queued completion leaves the queue and reaches the list as `ApplyCompletion`. It notifies exactly when it is a success and its id is listed. |
| `ReviewsScreen.ReviewsViewModel.NumberOfRows` | Test/Screens/Reviews/ReviewsViewModel.swift:171-176 | Every item has a row. There is at most one extra row, and there is one exactly when `shouldLoad` is false. |
| `ReviewsScreen.ReviewsViewModel.CellForRow` | Test/Screens/Reviews/ReviewsViewModel.swift:178-194 | Every row below the row count that is not the extra row shows the item at that index, which is in bounds. The extra row (index = item count, loading off) shows the footer and its count if one exists, and a blank cell otherwise. |
| `ReviewsScreen.ReviewsViewModel.HeightForRow` | Test/Screens/Reviews/ReviewsViewModel.swift:202-210 | The blank extra row is 30 high. Other rows take their layout's height. |
| `ReviewsScenarios.PagingScenario` | Test/Screens/Reviews/ReviewsViewModel.swift:81-95 | Pages of 20, 20 and 5 out of 45 reviews give 20, 40 and 45 items at offsets 20, 40 and 60. The next `getReviews` creates the footer for 45, and the table has 46 rows. |
| `ReviewsScenarios.RetryScenario` | Test/Screens/Reviews/ReviewsViewModel.swift:88-90 | After a failed first page, the list is empty at offset 0 and the next `getReviews` asks for offset 0 again. |
| `ReviewsScenarios.FooterWhileLoadingScenario` | Test/Screens/Reviews/ReviewsViewModel.swift:37-44 | A second `getReviews` during a load sends no request but creates a footer counting 0 reviews. |
| `ReviewsScenarios.RefreshScenario` | Test/Screens/Reviews/ReviewsViewModel.swift:57-73 | After one page, the refresh asks for offset 20. The list keeps its 20 items until the answer, which then becomes the whole list, at offset 20. |
| `ReviewsScenarios.RefreshRaceScenario` | Test/Screens/Reviews/ReviewsViewModel.swift:57-73 | A refresh that completes during a load lets a second load go out, so two are in flight. The stale answer is appended after the refreshed page: 40 items at offset 40. |
| `ReviewsScenarios.AvatarScenario` | Test/Screens/Reviews/ReviewsViewModel.swift:144-163 | A listed item's avatar load that misses the cache and succeeds adds exactly one notification once delivered, and the item shows the image. |
| `ReviewsScenarios.SharedUrlScenario` | Test/Screens/Reviews/ImagesLoader.swift:29-67 | Two records sharing an avatar URL whose lookups both run before either answer is stored: neither finds a cached image, so the page and the two avatars notify three times in all, and both items show the image. |
| `ReviewsScenarios.CacheHitScenario` | Test/Screens/Reviews/ImagesLoader.swift:32-68 | A second fetch of a cached URL whose network answer is a server error delivers the cached image and then `LoadingError`. |

## Left out

- `[weak self]` captures are left out, so the cases where the view model or loader has been released and a callback does nothing are not modelled.
- Dispatch queues are modelled only for avatar loads (the loader's background block, the data task's handler and the main-queue completions are separate steps). `gotReviews` calls `onStateChange` through `DispatchQueue.main.async`; the model counts that call within the completion step, so its order relative to queued avatar completions is not modelled.
- Request offsets are taken at request time. In the app, `getReviews` and `refreshReviews` read the offset inside a block on a global queue, which can run slightly later.
- The reviews provider call and the JSON decoding of its body are external. They appear as a `PageResult`: a decoded page of records with a count, or a provider or decoding failure.
- `NSCache` eviction is not modelled. The cache is a map that only grows.
- `UIImage(data:)` is an abstract `decode` function, and `URL(string:)` is an abstract `parseUrl` function. The data task's answer is an abstract `Response`.
- `convertUIImageToData` is not modelled, because it is never called.
- The `UUID()` constructor is replaced by a counter, which gives the same uniqueness that is relied on.
- Attributed strings, fonts, colours and the rating renderer are left out. The text is kept as plain strings, and the rendered rating as the rating number.
- The item array has type `[TableCellConfig]` and is searched with `as? ReviewItem`. Only review items are ever put in it, so it is modelled as a sequence of review items.
- The `onTapShowMore` closure only forwards to `showMoreReview`, so that method is modelled directly.
- The scroll trigger `shouldLoadNextPage` (floating-point geometry) is left out.
- Cell dequeuing and `update(cell:)` are left out. The layout heights of items and the footer are a `layoutHeight` parameter.
- The footer cell's text and layout are left out. The footer is its review count.
- `ReviewsViewModelState` and `ReviewCellConfig` are not part of this model. So the initial offset, page size, loading flag and footer, and the default line limit of new items, are constructor parameters. The item list starts empty.
- `offset` is an unbounded integer. 64-bit overflow of the offset is not modelled.
- Screen layout, the loading indicator and the view controller wiring are left out. The view controller calls `getReviews` on load and `refreshReviews` on pull-to-refresh.

=== FILE: images_loader.dfy ===
/** The avatar image loader: a URL-keyed in-memory cache in front of a network fetch
    whose outcome is classified into an image or one of three typed errors. */
module Images {
  import opened Wrappers

  type Bytes = seq<bv8>

  /** A decoded image (`UIImage`); its pixels are not modelled. */
  datatype Image = Image(handle: nat)

  /** A parsed URL; only its `absoluteString`, the cache key, matters here. */
  datatype Url = Url(absoluteString: string)

  /** `ImagesLoaderError`. */
  datatype LoaderError = DownloadingError | LoadingError | ConvertingError

  /** What the data task hands to its completion handler: the body if any, the status code
      when the response is present and is an HTTP response (`None` otherwise), and whether
      an error was reported. */
  datatype Response = Response(data: Option<Bytes>, statusCode: Option<int>, failed: bool)

  /** The download guard: there is a body, an HTTP response and no error. */
  predicate Downloaded(r: Response) {
    r.data.Some? && r.statusCode.Some? && !r.failed
  }

  /** The status guard: `200 ..< 300 ~= statusCode`. */
  predicate StatusAccepted(code: int) {
    200 <= code < 300
  }

  /** The single outcome a network fetch reports. The checks run in a fixed order
      (download, then status, then decoding), so each error names the first check that
      failed, and success means all three passed and the body decoded to that image. */
  function Classify(r: Response, decode: Bytes -> Option<Image>): (out: Result<Image, LoaderError>)
    ensures out == Failure(DownloadingError) <==> !Downloaded(r)
    ensures out == Failure(LoadingError) <==> Downloaded(r) && !StatusAccepted(r.statusCode.value)
    ensures out == Failure(ConvertingError) <==>
      Downloaded(r) && StatusAccepted(r.statusCode.value) && decode(r.data.value).None?
    ensures out.Success? ==> Downloaded(r) && StatusAccepted(r.statusCode.value)
    ensures out.Success? ==> decode(r.data.value) == Some(out.value)
  {
    if !Downloaded(r) then Failure(DownloadingError)
    else if !StatusAccepted(r.statusCode.value) then Failure(LoadingError)
    else match decode(r.data.value)
      case None => Failure(ConvertingError)
      case Some(image) => Success(image)
  }

  /** The completions one call of `asyncFetchImage` delivers, in order: the cached image
      when the cache holds one for the URL (there is no early return after it), then the
      outcome of the network fetch, which always runs. */
  function FetchCompletions(cache: map<string, Image>, url: Url, r: Response, decode: Bytes -> Option<Image>)
    : (delivered: seq<Result<Image, LoaderError>>)
    ensures |delivered| == (if url.absoluteString in cache then 2 else 1)
    ensures delivered[|delivered| - 1] == Classify(r, decode)
    ensures url.absoluteString in cache ==> delivered[0] == Success(cache[url.absoluteString])
  {
    (if url.absoluteString in cache then [Success(cache[url.absoluteString])] else [])
    + [Classify(r, decode)]
  }

  /** The cache after one fetch: written at the URL's key only when the fetch succeeded. */
  function CacheAfterFetch(cache: map<string, Image>, url: Url, r: Response, decode: Bytes -> Option<Image>)
    : (after: map<string, Image>)
    ensures Classify(r, decode).Failure? ==> after == cache
    ensures Classify(r, decode).Success? ==>
      url.absoluteString in after && after[url.absoluteString] == Classify(r, decode).value
    ensures forall key :: key != url.absoluteString ==>
      (key in after <==> key in cache) && (key in cache ==> after[key] == cache[key])
  {
    match Classify(r, decode)
    case Success(image) => cache[url.absoluteString := image]
    case Failure(_) => cache
  }

  /** `ImageLoader`, whose `NSCache` is a map that is never evicted. */
  class ImageLoader {
    var cache: map<string, Image>

    constructor ()
      ensures cache == map[]
    {
      cache := map[];
    }

    /** `getImageData(forKey:)`: the image stored under `key`, if any. */
    method GetImageData(key: string) returns (image: Option<Image>)
      ensures image.Some? <==> key in cache
      ensures image.Some? ==> image.value == cache[key]
    {
      image := if key in cache then Some(cache[key]) else None;
    }

    /** `setImageData(_:forKey:)`: stores `image` under `key`, replacing any earlier one. */
    method SetImageData(image: Image, key: string)
      modifies this
      ensures cache == old(cache)[key := image]
    {
      cache := cache[key := image];
    }

    /** The data task's completion handler inside `asyncFetchImage`, with the data task's
        answer given as `response` and `UIImage(data:)` as `decode`: the guards run in
        order, and only a decoded image is stored before it is reported. */
    method HandleResponse(url: Url, response: Response, decode: Bytes -> Option<Image>)
      returns (outcome: Result<Image, LoaderError>)
      modifies this
      ensures outcome == Classify(response, decode)
      ensures cache == CacheAfterFetch(old(cache), url, response, decode)
    {
      if response.data.None? || response.statusCode.None? || response.failed {
        return Failure(DownloadingError);
      }
      if !(200 <= response.statusCode.value < 300) {
        return Failure(LoadingError);
      }
      var image := decode(response.data.value);
      if image.None? {
        return Failure(ConvertingError);
      }
      SetImageData(image.value, url.absoluteString);
      outcome := Success(image.value);
    }

    /** `asyncFetchImage(url:completion:)` when nothing else touches the cache between its
        background block and its data task's answer: the cache lookup, then the handler.
        Returns the completions delivered, in order. */
    method AsyncFetchImage(url: Url, response: Response, decode: Bytes -> Option<Image>)
      returns (delivered: seq<Result<Image, LoaderError>>)
      modifies this
      ensures delivered == FetchCompletions(old(cache), url, response, decode)
      ensures cache == CacheAfterFetch(old(cache), url, response, decode)
    {
      delivered := [];
      var cached := GetImageData(url.absoluteString);
      if cached.Some? {
        delivered := delivered + [Success(cached.value)];
      }
      var outcome := HandleResponse(url, response, decode);
      delivered := delivered + [outcome];
    }
  }

  /** After a successful fetch, the next fetch of the same URL first delivers the image
      that was stored, whatever its own network answer turns out to be. */
  lemma StoredImageServedNext(cache: map<string, Image>, url: Url, first: Response, second: Response,
                              decode: Bytes -> Option<Image>)
    requires Classify(first, decode).Success?
    ensures FetchCompletions(CacheAfterFetch(cache, url, first, decode), url, second, decode)
            == [Classify(first, decode), Classify(second, decode)]
  {
  }
}

=== FILE: review.dfy ===
/** The wire record of one review, as decoded from a page of the reviews endpoint. */
module ReviewModel {
  import opened Wrappers

  /** `Review`: review text, creation time text, optional avatar URL string,
      the rating left by the user, and the user's first and last names. */
  datatype Review = Review(
    text: string,
    created: string,
    avatarUrl: Option<string>,
    rating: int,
    firstName: string,
    lastName: string)
}

=== FILE: reviews_view_model.dfy ===
/** The reviews screen's view model: a paginated list of review items that grows page by
    page, is replaced on refresh, and has single items updated by id when their text is
    expanded or their avatar arrives. */
module ReviewsScreen {
  import opened Wrappers
  import opened ReviewModel
  import opened Images

  /** Height of the blank cell shown in the extra row when no footer exists yet. */
  const BlankRowHeight := 30

  /** An item's avatar: the bundled placeholder until a fetched image replaces it. */
  datatype Avatar = Placeholder | Loaded(image: Image)

  /** The rating as rendered by the rating renderer; the rendering itself is opaque. */
  datatype RatingImage = RatingImage(rating: int)

  /** `ReviewCellConfig`, with the attributed strings kept as plain text and the
      fresh `UUID` as a number. */
  datatype ReviewItem = ReviewItem(
    id: nat,
    reviewText: string,
    created: string,
    avatarImage: Avatar,
    userFullName: string,
    ratingImage: RatingImage,
    maxLines: nat,
    images: seq<Image>)

  /** Why a page could not be used: the provider failed, or its body did not decode. */
  datatype PageError = ProviderError | DecodingError

  /** What a reviews-provider request completes with: the decoded page
      (its records and the total review count) or an error. */
  datatype PageResult = Page(reviews: seq<Review>, count: int) | Failed(error: PageError)

  /** Which call issued a provider request: `getReviews` or `refreshReviews`. */
  datatype Origin = Load | Refresh

  /** A provider request in flight, with the offset it asked for. */
  datatype PageFetch = PageFetch(offset: int, origin: Origin)

  /** An avatar load for the item with this id, from this URL. */
  datatype AvatarFetch = AvatarFetch(id: nat, url: Url)

  /** A completion the image loader has queued on the main queue for the item with this id. */
  datatype Delivery = Delivery(id: nat, result: Result<Image, LoaderError>)

  /** What a table row shows: an item, the footer with its review count, or a blank cell. */
  datatype Row = ItemRow(index: nat) | FooterRow(reviewCount: int) | BlankRow

  // ---------------------------------------------------------------------------------
  // Mapping records to items

  /** `makeReviewItem` without its avatar request: the item shown for `review`, under the
      fresh id `id`, with the placeholder avatar and `maxLines` lines of text. */
  function MakeReviewItem(review: Review, id: nat, maxLines: nat): (item: ReviewItem)
    ensures item.id == id && item.avatarImage == Placeholder && item.maxLines == maxLines
    ensures item.reviewText == review.text && item.created == review.created
    ensures |item.userFullName| == |review.firstName| + 1 + |review.lastName|
    ensures item.userFullName[..|review.firstName|] == review.firstName
    ensures item.userFullName[|review.firstName|] == ' '
    ensures item.userFullName[|review.firstName| + 1..] == review.lastName
    ensures item.ratingImage == RatingImage(review.rating) && item.images == []
  {
    ReviewItem(id, review.text, review.created, Placeholder,
               review.firstName + " " + review.lastName, RatingImage(review.rating), maxLines, [])
  }

  /** `reviews.items.map(makeReviewItem)` with ids drawn from `firstId` upwards:
      one item per record, in record order, each under its own fresh id. */
  function MapReviews(reviews: seq<Review>, firstId: nat, maxLines: nat): (items: seq<ReviewItem>)
    ensures |items| == |reviews|
    ensures forall i :: 0 <= i < |reviews| ==> items[i] == MakeReviewItem(reviews[i], firstId + i, maxLines)
    decreases |reviews|
  {
    if reviews == [] then []
    else [MakeReviewItem(reviews[0], firstId, maxLines)] + MapReviews(reviews[1..], firstId + 1, maxLines)
  }

  /** The URL an avatar is requested from: only when the record has an avatar URL string
      and `URL(string:)` (here `parseUrl`) accepts it. */
  function AvatarUrl(review: Review, parseUrl: string -> Option<Url>): (url: Option<Url>)
    ensures url.Some? <==> review.avatarUrl.Some? && parseUrl(review.avatarUrl.value).Some?
    ensures url.Some? ==> url == parseUrl(review.avatarUrl.value)
  {
    match review.avatarUrl
    case None => None
    case Some(s) => parseUrl(s)
  }

  /** The avatar loads `makeReviewItem` starts while mapping `reviews` from `firstId`:
      at most one per record, under that record's item id, in record order. */
  function AvatarFetches(reviews: seq<Review>, firstId: nat, parseUrl: string -> Option<Url>)
    : (fetches: seq<AvatarFetch>)
    ensures |fetches| <= |reviews|
    ensures forall i :: 0 <= i < |fetches| ==> firstId <= fetches[i].id < firstId + |reviews|
    ensures forall i, j :: 0 <= i < j < |fetches| ==> fetches[i].id < fetches[j].id
    decreases |reviews|
  {
    if reviews == [] then []
    else
      var url := AvatarUrl(reviews[0], parseUrl);
      (if url.Some? then [AvatarFetch(firstId, url.value)] else [])
      + AvatarFetches(reviews[1..], firstId + 1, parseUrl)
  }

  /** Mapping a page starts avatar loads only for records whose avatar URL parses, each
      for that record's item and from that URL. */
  lemma {:induction false} AvatarFetchesSound(reviews: seq<Review>, firstId: nat, parseUrl: string -> Option<Url>,
                                              f: AvatarFetch)
    requires f in AvatarFetches(reviews, firstId, parseUrl)
    ensures firstId <= f.id < firstId + |reviews|
    ensures AvatarUrl(reviews[f.id - firstId], parseUrl) == Some(f.url)
    decreases |reviews|
  {
    var url := AvatarUrl(reviews[0], parseUrl);
    var head: seq<AvatarFetch> := if url.Some? then [AvatarFetch(firstId, url.value)] else [];
    var tail := AvatarFetches(reviews[1..], firstId + 1, parseUrl);
    assert f in head + tail;
    if f !in head {
      assert f in tail;
      AvatarFetchesSound(reviews[1..], firstId + 1, parseUrl, f);
      assert reviews[f.id - firstId] == reviews[1..][f.id - (firstId + 1)];
    }
  }

  /** Mapping a page starts an avatar load for every record whose avatar URL parses. */
  lemma {:induction false} AvatarFetchesComplete(reviews: seq<Review>, firstId: nat, parseUrl: string -> Option<Url>,
                                                 i: nat)
    requires i < |reviews| && AvatarUrl(reviews[i], parseUrl).Some?
    ensures AvatarFetch(firstId + i, AvatarUrl(reviews[i], parseUrl).value) in AvatarFetches(reviews, firstId, parseUrl)
    decreases |reviews|
  {
    var url := AvatarUrl(reviews[0], parseUrl);
    var head: seq<AvatarFetch> := if url.Some? then [AvatarFetch(firstId, url.value)] else [];
    var tail := AvatarFetches(reviews[1..], firstId + 1, parseUrl);
    assert AvatarFetches(reviews, firstId, parseUrl) == head + tail;
    if i > 0 {
      assert reviews[i] == reviews[1..][i - 1];
      AvatarFetchesComplete(reviews[1..], firstId + 1, parseUrl, i - 1);
    }
  }

  // ---------------------------------------------------------------------------------
  // Looking items up and updating them by id

  predicate IdsBelow(items: seq<ReviewItem>, bound: nat) {
    forall j :: 0 <= j < |items| ==> items[j].id < bound
  }

  predicate IdsDistinct(items: seq<ReviewItem>) {
    forall i, j :: 0 <= i < j < |items| ==> items[i].id != items[j].id
  }

  /** Two lists with the same ids at the same positions. */
  predicate SameIds(a: seq<ReviewItem>, b: seq<ReviewItem>) {
    |a| == |b| && forall j :: 0 <= j < |a| ==> a[j].id == b[j].id
  }

  /** `items.firstIndex(where: { $0.id == id })`. */
  function FirstIndexOf(items: seq<ReviewItem>, id: nat): (index: Option<nat>)
    ensures index.Some? ==> index.value < |items| && items[index.value].id == id
    ensures index.Some? ==> forall j :: 0 <= j < index.value ==> items[j].id != id
    ensures index.None? ==> forall j :: 0 <= j < |items| ==> items[j].id != id
    decreases |items|
  {
    if items == [] then None
    else if items[0].id == id then Some(0)
    else match FirstIndexOf(items[1..], id)
      case None => None
      case Some(i) => Some(i + 1)
  }

  /** The list after `showMoreReview(with: id)`: the first item with that id shows its whole
      text (`maxLines` zero); nothing else changes, and an unknown id changes nothing. */
  function ExpandText(items: seq<ReviewItem>, id: nat): (result: seq<ReviewItem>)
    ensures SameIds(result, items)
    ensures FirstIndexOf(items, id).None? ==> result == items
    ensures FirstIndexOf(items, id).Some? ==>
      var i := FirstIndexOf(items, id).value;
      result[i].maxLines == 0 && result[i] == items[i].(maxLines := 0) &&
      forall j :: 0 <= j < |items| && j != i ==> result[j] == items[j]
  {
    match FirstIndexOf(items, id)
    case None => items
    case Some(i) => items[i := items[i].(maxLines := 0)]
  }

  /** The list after `processedImageLoaded(with: id, image:)`: the first item with that id
      shows `image`; nothing else changes, and an unknown id changes nothing. */
  function SetAvatar(items: seq<ReviewItem>, id: nat, image: Image): (result: seq<ReviewItem>)
    ensures SameIds(result, items)
    ensures FirstIndexOf(items, id).None? ==> result == items
    ensures FirstIndexOf(items, id).Some? ==>
      var i := FirstIndexOf(items, id).value;
      result[i] == items[i].(avatarImage := Loaded(image)) &&
      forall j :: 0 <= j < |items| && j != i ==> result[j] == items[j]
  {
    match FirstIndexOf(items, id)
    case None => items
    case Some(i) => items[i := items[i].(avatarImage := Loaded(image))]
  }

  /** The list after one avatar completion reaches `updateAvatarImage`'s handler: a success
      sets the avatar of the first item with that id, as `processedImageLoaded` does; a
      failure, or an id that is no longer listed, changes nothing. */
  function ApplyCompletion(items: seq<ReviewItem>, id: nat, completion: Result<Image, LoaderError>)
    : (result: seq<ReviewItem>)
    ensures SameIds(result, items)
    ensures completion.Failure? || FirstIndexOf(items, id).None? ==> result == items
    ensures completion.Success? && FirstIndexOf(items, id).Some? ==>
      var i := FirstIndexOf(items, id).value;
      result[i] == items[i].(avatarImage := Loaded(completion.value)) &&
      forall j :: 0 <= j < |items| && j != i ==> result[j] == items[j]
  {
    match completion
    case Success(image) => SetAvatar(items, id, image)
    case Failure(_) => items
  }

  /** None of `deliveries` is a success for `id`. */
  predicate NoSuccessFor(deliveries: seq<Delivery>, id: nat) {
    forall m :: 0 <= m < |deliveries| && deliveries[m].id == id ==> deliveries[m].result.Failure?
  }

  /** The list after the main queue runs the queued avatar completions `deliveries` in
      order. An item that no successful delivery names is untouched, so failures change
      nothing; `DeliverAvatarSnoc` and `LastSuccessShown` say what the successes do. */
  function DeliverAvatar(items: seq<ReviewItem>, deliveries: seq<Delivery>): (result: seq<ReviewItem>)
    ensures SameIds(result, items)
    ensures (forall d :: d in deliveries ==> d.result.Failure?) ==> result == items
    ensures forall j :: 0 <= j < |items| && NoSuccessFor(deliveries, items[j].id) ==> result[j] == items[j]
    decreases |deliveries|
  {
    if deliveries == [] then items
    else
      assert deliveries[0] in deliveries;
      assert forall d :: d in deliveries[1..] ==> d in deliveries;
      assert forall id :: NoSuccessFor(deliveries, id) ==> NoSuccessFor(deliveries[1..], id);
      DeliverAvatar(ApplyCompletion(items, deliveries[0].id, deliveries[0].result), deliveries[1..])
  }

  /** Running one more queued completion after `deliveries` is `ApplyCompletion` on the list
      they left: the fold is the main queue running `DeliverNext` once per delivery. */
  lemma {:induction false} DeliverAvatarSnoc(items: seq<ReviewItem>, deliveries: seq<Delivery>, d: Delivery)
    ensures DeliverAvatar(items, deliveries + [d]) == ApplyCompletion(DeliverAvatar(items, deliveries), d.id, d.result)
    decreases |deliveries|
  {
    if deliveries == [] {
      assert deliveries + [d] == [d] && [d][1..] == [];
    } else {
      var next := ApplyCompletion(items, deliveries[0].id, deliveries[0].result);
      assert (deliveries + [d])[0] == deliveries[0];
      assert (deliveries + [d])[1..] == deliveries[1..] + [d];
      DeliverAvatarSnoc(next, deliveries[1..], d);
    }
  }

  /** A successful delivery for a listed id that no later success for that id overrides
      leaves the first item with that id showing its image. */
  lemma {:induction false} LastSuccessShown(items: seq<ReviewItem>, deliveries: seq<Delivery>, k: nat)
    requires k < |deliveries| && deliveries[k].result.Success?
    requires FirstIndexOf(items, deliveries[k].id).Some?
    requires NoSuccessFor(deliveries[k + 1..], deliveries[k].id)
    ensures DeliverAvatar(items, deliveries)[FirstIndexOf(items, deliveries[k].id).value].avatarImage
            == Loaded(deliveries[k].result.value)
    decreases k
  {
    var next := ApplyCompletion(items, deliveries[0].id, deliveries[0].result);
    assert DeliverAvatar(items, deliveries) == DeliverAvatar(next, deliveries[1..]);
    LookupSeesOnlyIds(next, items, deliveries[k].id);
    if k > 0 {
      assert deliveries[1..][k - 1] == deliveries[k];
      assert deliveries[1..][k..] == deliveries[k + 1..];
      LastSuccessShown(next, deliveries[1..], k - 1);
    }
  }

  /** A lookup by id sees only the ids, so an update that keeps every id in place
      (expanding a text, setting an avatar) keeps every lookup's answer. */
  lemma {:induction false} LookupSeesOnlyIds(a: seq<ReviewItem>, b: seq<ReviewItem>, id: nat)
    requires SameIds(a, b)
    ensures FirstIndexOf(a, id) == FirstIndexOf(b, id)
    decreases |a|
  {
    if a != [] && a[0].id != id {
      LookupSeesOnlyIds(a[1..], b[1..], id);
    }
  }

  /** `showMoreReview` is idempotent: expanding the same item twice is expanding it once. */
  lemma ExpandTextIdempotent(items: seq<ReviewItem>, id: nat)
    ensures ExpandText(ExpandText(items, id), id) == ExpandText(items, id)
  {
    LookupSeesOnlyIds(ExpandText(items, id), items, id);
  }

  /** Queued avatar completions whose items are no longer listed (a refresh dropped them)
      change nothing, whether they succeed or fail. */
  lemma StaleAvatarIgnored(items: seq<ReviewItem>, deliveries: seq<Delivery>)
    requires forall d :: d in deliveries ==> FirstIndexOf(items, d.id).None?
    ensures DeliverAvatar(items, deliveries) == items
  {
    var result := DeliverAvatar(items, deliveries);
    assert forall j :: 0 <= j < |items| ==> result[j] == items[j];
  }

  /** Appending a page mapped from the next fresh id keeps every id distinct and below the
      advanced counter, and gives the new items ids no earlier item had. */
  lemma AppendPageKeepsIdsFresh(items: seq<ReviewItem>, nextId: nat, reviews: seq<Review>, maxLines: nat)
    requires IdsBelow(items, nextId) && IdsDistinct(items)
    ensures IdsBelow(items + MapReviews(reviews, nextId, maxLines), nextId + |reviews|)
    ensures IdsDistinct(items + MapReviews(reviews, nextId, maxLines))
    ensures forall j :: |items| <= j < |items| + |reviews| ==>
      (items + MapReviews(reviews, nextId, maxLines))[j].id >= nextId
  {
    var page := MapReviews(reviews, nextId, maxLines);
    var all := items + page;
    assert forall i :: 0 <= i < |page| ==> page[i].id == nextId + i;
    assert forall j :: |items| <= j < |all| ==> all[j] == page[j - |items|];
    assert forall j :: 0 <= j < |items| ==> all[j] == items[j];
  }

  lemma AppendFetchesKeepsIdsBelow(fetches: seq<AvatarFetch>, nextId: nat, reviews: seq<Review>,
                                   parseUrl: string -> Option<Url>)
    requires forall f :: f in fetches ==> f.id < nextId
    ensures forall f :: f in fetches + AvatarFetches(reviews, nextId, parseUrl) ==> f.id < nextId + |reviews|
  {
    forall f | f in AvatarFetches(reviews, nextId, parseUrl) {
      AvatarFetchesSound(reviews, nextId, parseUrl, f);
    }
  }

  // ---------------------------------------------------------------------------------
  // Requests in flight

  /** How many of `fetches` were issued by `getReviews`. */
  function CountLoads(fetches: seq<PageFetch>): nat
    decreases |fetches|
  {
    if fetches == [] then 0
    else (if fetches[0].origin == Load then 1 else 0) + CountLoads(fetches[1..])
  }

  lemma {:induction false} CountLoadsAppend(a: seq<PageFetch>, b: seq<PageFetch>)
    ensures CountLoads(a + b) == CountLoads(a) + CountLoads(b)
    decreases |a|
  {
    if a != [] {
      assert (a + b)[0] == a[0];
      assert (a + b)[1..] == a[1..] + b;
      CountLoadsAppend(a[1..], b);
    } else {
      assert a + b == b;
    }
  }

  /** Completing request `k` takes exactly its own contribution off the count of loads. */
  lemma CountLoadsRemove(fetches: seq<PageFetch>, k: nat)
    requires k < |fetches|
    ensures CountLoads(fetches[..k] + fetches[k + 1..])
            == CountLoads(fetches) - (if fetches[k].origin == Load then 1 else 0)
  {
    var x, before, after := fetches[k], fetches[..k], fetches[k + 1..];
    CountLoadsOne(x);
    assert fetches == before + ([x] + after);
    CountLoadsAppend(before, [x] + after);
    CountLoadsAppend([x], after);
    CountLoadsAppend(before, after);
  }

  lemma CountLoadsOne(x: PageFetch)
    ensures CountLoads([x]) == (if x.origin == Load then 1 else 0)
  {
    assert [x][1..] == [];
  }

  // ---------------------------------------------------------------------------------
  // The view model

  /** `ReviewsViewModel`. The first five fields are its `state`. The rest make its
      asynchronous behaviour explicit: the next fresh id, the provider requests in flight,
      each avatar load at its stage (waiting for the image loader's background block, or
      waiting for its data task's answer), the avatar completions queued on the main queue,
      and how many times `onStateChange` has been called. */
  class ReviewsViewModel {
    var items: seq<ReviewItem>
    var offset: int
    const limit: int
    var shouldLoad: bool
    var footer: Option<int>

    var nextId: nat
    var pageFetches: seq<PageFetch>
    var awaitingLookup: seq<AvatarFetch>
    var awaitingAnswer: seq<AvatarFetch>
    var deliveries: seq<Delivery>
    var stateChanges: nat

    const imageLoader: ImageLoader
    /** `URL(string:)`. */
    const parseUrl: string -> Option<Url>
    /** The line limit a new item's text starts with. */
    const collapsedLines: nat

    ghost predicate Valid()
      reads this
    {
      limit > 0 && offset >= 0 &&
      IdsBelow(items, nextId) && IdsDistinct(items) &&
      (forall f :: f in awaitingLookup ==> f.id < nextId) &&
      (forall f :: f in awaitingAnswer ==> f.id < nextId) &&
      (forall d :: d in deliveries ==> d.id < nextId)
    }

    /** How many `getReviews` requests are in flight. */
    function LoadsInFlight(): nat
      reads this
    {
      CountLoads(pageFetches)
    }

    /** At most one `getReviews` request is in flight, and while one is, loading is off. */
    ghost predicate SingleLoad()
      reads this
    {
      LoadsInFlight() <= 1 && (LoadsInFlight() == 1 ==> !shouldLoad)
    }

    /** The state a completion leaves after merging `result` into a list that was `items0`
        at `offset0`, with `nextId0` the next fresh id and `fetches0` the avatar loads. */
    ghost predicate Merged(items0: seq<ReviewItem>, offset0: int, nextId0: nat, fetches0: seq<AvatarFetch>,
                           result: PageResult)
      reads this
    {
      match result
      case Page(reviews, count) =>
        items == items0 + MapReviews(reviews, nextId0, collapsedLines) &&
        offset == offset0 + limit && shouldLoad == (offset < count) &&
        nextId == nextId0 + |reviews| &&
        awaitingLookup == fetches0 + AvatarFetches(reviews, nextId0, parseUrl)
      case Failed(_) =>
        items == items0 && offset == offset0 && shouldLoad &&
        nextId == nextId0 && awaitingLookup == fetches0
    }

    /** `init(state:...)` with an empty item list. */
    constructor (offset: nat, limit: int, shouldLoad: bool, footer: Option<int>,
                 parseUrl: string -> Option<Url>, collapsedLines: nat)
      requires limit > 0
      ensures Valid() && fresh(imageLoader) && imageLoader.cache == map[]
      ensures items == [] && this.offset == offset && this.limit == limit
      ensures this.shouldLoad == shouldLoad && this.footer == footer
      ensures nextId == 0 && pageFetches == [] && stateChanges == 0
      ensures awaitingLookup == [] && awaitingAnswer == [] && deliveries == []
      ensures this.parseUrl == parseUrl && this.collapsedLines == collapsedLines
    {
      items, this.offset, this.limit, this.shouldLoad, this.footer := [], offset, limit, shouldLoad, footer;
      nextId, pageFetches, stateChanges := 0, [], 0;
      awaitingLookup, awaitingAnswer, deliveries := [], [], [];
      imageLoader := new ImageLoader();
      this.parseUrl, this.collapsedLines := parseUrl, collapsedLines;
    }

    /** `getReviews()`, up to issuing the request. When loading is allowed it turns loading
        off and requests the page at the current offset; otherwise it only creates the
        footer, counting the listed items, if there is none yet. */
    method GetReviews()
      requires Valid()
      modifies this
      ensures Valid() && !shouldLoad
      ensures old(shouldLoad) ==>
        pageFetches == old(pageFetches) + [PageFetch(old(offset), Load)] && footer == old(footer)
      ensures !old(shouldLoad) ==>
        pageFetches == old(pageFetches) &&
        footer == (if old(footer).None? then Some(|items|) else old(footer))
      ensures items == old(items) && offset == old(offset) && nextId == old(nextId)
      ensures awaitingLookup == old(awaitingLookup) && stateChanges == old(stateChanges)
      ensures awaitingAnswer == old(awaitingAnswer) && deliveries == old(deliveries)
      ensures old(SingleLoad()) ==> SingleLoad()
    {
      if !shouldLoad {
        if footer.None? {
          footer := Some(|items|);
        }
        return;
      }
      shouldLoad := false;
      CountLoadsAppend(pageFetches, [PageFetch(offset, Load)]);
      pageFetches := pageFetches + [PageFetch(offset, Load)];
    }

    /** `refreshReviews()`, up to issuing the request: it asks for the page at the current,
        not yet reset, offset and leaves the rest of the state alone. */
    method RefreshReviews()
      requires Valid()
      modifies this
      ensures Valid()
      ensures pageFetches == old(pageFetches) + [PageFetch(old(offset), Refresh)]
      ensures LoadsInFlight() == old(LoadsInFlight())
      ensures items == old(items) && offset == old(offset) && shouldLoad == old(shouldLoad)
      ensures footer == old(footer) && nextId == old(nextId)
      ensures awaitingLookup == old(awaitingLookup) && stateChanges == old(stateChanges)
      ensures awaitingAnswer == old(awaitingAnswer) && deliveries == old(deliveries)
    {
      CountLoadsAppend(pageFetches, [PageFetch(offset, Refresh)]);
      pageFetches := pageFetches + [PageFetch(offset, Refresh)];
    }

    /** `gotReviews(_:)`: a page is appended, mapped item by item, and the offset advances
        by one page; a failure changes neither and turns loading back on, so that the next
        `getReviews` asks for the same offset again. Both notify once. */
    method GotReviews(result: PageResult)
      requires Valid()
      modifies this
      ensures Valid()
      ensures Merged(old(items), old(offset), old(nextId), old(awaitingLookup), result)
      ensures stateChanges == old(stateChanges) + 1
      ensures footer == old(footer) && pageFetches == old(pageFetches)
      ensures awaitingAnswer == old(awaitingAnswer) && deliveries == old(deliveries)
    {
      if result.Page? {
        var reviews := result.reviews;
        AppendPageKeepsIdsFresh(items, nextId, reviews, collapsedLines);
        AppendFetchesKeepsIdsBelow(awaitingLookup, nextId, reviews, parseUrl);
        var page := MapReviews(reviews, nextId, collapsedLines);
        var fetches := AvatarFetches(reviews, nextId, parseUrl);
        items, awaitingLookup := items + page, awaitingLookup + fetches;
        nextId, offset := nextId + |reviews|, offset + limit;
        shouldLoad := offset < result.count;
      } else {
        shouldLoad := true;
      }
      stateChanges := stateChanges + 1;
    }

    /** The provider's answer to the `getReviews` request `k`. */
    method GetReviewsCompleted(k: nat, result: PageResult)
      requires Valid() && k < |pageFetches| && pageFetches[k].origin == Load
      modifies this
      ensures Valid()
      ensures pageFetches == old(pageFetches[..k] + pageFetches[k + 1..])
      ensures LoadsInFlight() == old(LoadsInFlight()) - 1
      ensures Merged(old(items), old(offset), old(nextId), old(awaitingLookup), result)
      ensures stateChanges == old(stateChanges) + 1 && footer == old(footer)
      ensures awaitingAnswer == old(awaitingAnswer) && deliveries == old(deliveries)
      ensures old(SingleLoad()) ==> SingleLoad()
    {
      CountLoadsRemove(pageFetches, k);
      pageFetches := pageFetches[..k] + pageFetches[k + 1..];
      GotReviews(result);
    }

    /** The provider's answer to the `refreshReviews` request `k`: only now is the list
        reset (offset zero, no items, no footer, loading on) before the answer is merged.
        Avatar loads started before the reset, at whatever stage, can no longer find their
        items. */
    method RefreshReviewsCompleted(k: nat, result: PageResult)
      requires Valid() && k < |pageFetches| && pageFetches[k].origin == Refresh
      modifies this
      ensures Valid()
      ensures pageFetches == old(pageFetches[..k] + pageFetches[k + 1..])
      ensures LoadsInFlight() == old(LoadsInFlight())
      ensures Merged([], 0, old(nextId), old(awaitingLookup), result)
      ensures footer == None && stateChanges == old(stateChanges) + 1
      ensures awaitingAnswer == old(awaitingAnswer) && deliveries == old(deliveries)
      ensures forall f :: f in old(awaitingLookup) ==> FirstIndexOf(items, f.id).None?
      ensures forall f :: f in old(awaitingAnswer) ==> FirstIndexOf(items, f.id).None?
      ensures forall d :: d in old(deliveries) ==> FirstIndexOf(items, d.id).None?
    {
      CountLoadsRemove(pageFetches, k);
      pageFetches := pageFetches[..k] + pageFetches[k + 1..];
      ResetList();
      ghost var staleBound := nextId;
      GotReviews(result);
      assert forall j :: 0 <= j < |items| ==> items[j].id >= staleBound by {
        if result.Page? {
          assert items == [] + MapReviews(result.reviews, staleBound, collapsedLines);
        }
      }
      forall f | f in old(awaitingLookup)
        ensures FirstIndexOf(items, f.id).None?
      {
        assert f.id < staleBound;
      }
      forall f | f in old(awaitingAnswer)
        ensures FirstIndexOf(items, f.id).None?
      {
        assert f.id < staleBound;
      }
      forall d | d in old(deliveries)
        ensures FirstIndexOf(items, d.id).None?
      {
        assert d.id < staleBound;
      }
    }

    /** The reset the refresh completion performs before merging its answer. */
    method ResetList()
      requires Valid()
      modifies this
      ensures Valid()
      ensures items == [] && offset == 0 && footer == None && shouldLoad
      ensures nextId == old(nextId) && pageFetches == old(pageFetches)
      ensures awaitingLookup == old(awaitingLookup) && stateChanges == old(stateChanges)
      ensures awaitingAnswer == old(awaitingAnswer) && deliveries == old(deliveries)
    {
      offset := 0;
      items := [];
      footer := None;
      shouldLoad := true;
    }

    /** `showMoreReview(with:)`: only a listed id changes anything, and then it notifies. */
    method ShowMoreReview(id: nat)
      requires Valid()
      modifies this
      ensures Valid()
      ensures items == ExpandText(old(items), id)
      ensures stateChanges == old(stateChanges) + (if FirstIndexOf(old(items), id).Some? then 1 else 0)
      ensures offset == old(offset) && shouldLoad == old(shouldLoad) && footer == old(footer)
      ensures nextId == old(nextId) && pageFetches == old(pageFetches) && awaitingLookup == old(awaitingLookup)
      ensures awaitingAnswer == old(awaitingAnswer) && deliveries == old(deliveries)
    {
      var index := FirstIndexOf(items, id);
      if index.None? {
        return;
      }
      var item := items[index.value];
      item := item.(maxLines := 0);
      items := items[index.value := item];
      stateChanges := stateChanges + 1;
    }

    /** `processedImageLoaded(with:image:)`: only a listed id changes anything, and then
        it notifies. */
    method ProcessedImageLoaded(id: nat, image: Image)
      requires Valid()
      modifies this
      ensures Valid()
      ensures items == SetAvatar(old(items), id, image)
      ensures stateChanges == old(stateChanges) + (if FirstIndexOf(old(items), id).Some? then 1 else 0)
      ensures offset == old(offset) && shouldLoad == old(shouldLoad) && footer == old(footer)
      ensures nextId == old(nextId) && pageFetches == old(pageFetches) && awaitingLookup == old(awaitingLookup)
      ensures awaitingAnswer == old(awaitingAnswer) && deliveries == old(deliveries)
    {
      var index := FirstIndexOf(items, id);
      if index.None? {
        return;
      }
      var item := items[index.value];
      item := item.(avatarImage := Loaded(image));
      items := items[index.value := item];
      stateChanges := stateChanges + 1;
    }

    /** The completion handler `updateAvatarImage` passes to the image loader. */
    method AvatarCompletion(id: nat, completion: Result<Image, LoaderError>)
      requires Valid()
      modifies this
      ensures Valid()
      ensures items == ApplyCompletion(old(items), id, completion)
      ensures stateChanges == old(stateChanges) +
        (if FirstIndexOf(old(items), id).Some? && completion.Success? then 1 else 0)
      ensures offset == old(offset) && shouldLoad == old(shouldLoad) && footer == old(footer)
      ensures nextId == old(nextId) && pageFetches == old(pageFetches) && awaitingLookup == old(awaitingLookup)
      ensures awaitingAnswer == old(awaitingAnswer) && deliveries == old(deliveries)
    {
      match completion
      case Success(image) =>
        ProcessedImageLoaded(id, image);
      case Failure(_) =>
    }

    /** The background block `asyncFetchImage` dispatches for the avatar load `k` runs: it
        looks the URL up in the image loader's cache as it stands now, queues the cached
        image on the main queue when there is one, and starts the data task. */
    method AvatarLookup(k: nat)
      requires Valid() && k < |awaitingLookup|
      modifies this
      ensures Valid()
      ensures awaitingLookup == old(awaitingLookup[..k] + awaitingLookup[k + 1..])
      ensures awaitingAnswer == old(awaitingAnswer) + [old(awaitingLookup[k])]
      ensures
        var key := old(awaitingLookup[k].url.absoluteString);
        deliveries == old(deliveries) +
          (if key in imageLoader.cache then [Delivery(old(awaitingLookup[k].id), Success(imageLoader.cache[key]))]
           else [])
      ensures items == old(items) && stateChanges == old(stateChanges)
      ensures offset == old(offset) && shouldLoad == old(shouldLoad) && footer == old(footer)
      ensures nextId == old(nextId) && pageFetches == old(pageFetches)
    {
      var fetch := awaitingLookup[k];
      awaitingLookup := awaitingLookup[..k] + awaitingLookup[k + 1..];
      assert forall f :: f in awaitingLookup ==> f in old(awaitingLookup);
      var cached := imageLoader.GetImageData(fetch.url.absoluteString);
      if cached.Some? {
        deliveries := deliveries + [Delivery(fetch.id, Success(cached.value))];
      }
      awaitingAnswer := awaitingAnswer + [fetch];
    }

    /** The data task of the avatar load `k` answers with `response` (decoded by `decode`):
        the image loader's handler classifies it, stores a decoded image in the cache, and
        queues the outcome on the main queue. */
    method AvatarResponse(k: nat, response: Response, decode: Bytes -> Option<Image>)
      requires Valid() && k < |awaitingAnswer|
      modifies this, imageLoader
      ensures Valid()
      ensures awaitingAnswer == old(awaitingAnswer[..k] + awaitingAnswer[k + 1..])
      ensures imageLoader.cache == CacheAfterFetch(old(imageLoader.cache), old(awaitingAnswer[k].url), response, decode)
      ensures deliveries == old(deliveries) + [Delivery(old(awaitingAnswer[k].id), Classify(response, decode))]
      ensures items == old(items) && stateChanges == old(stateChanges)
      ensures offset == old(offset) && shouldLoad == old(shouldLoad) && footer == old(footer)
      ensures nextId == old(nextId) && pageFetches == old(pageFetches) && awaitingLookup == old(awaitingLookup)
    {
      var request := awaitingAnswer[k];
      awaitingAnswer := awaitingAnswer[..k] + awaitingAnswer[k + 1..];
      assert forall f :: f in awaitingAnswer ==> f in old(awaitingAnswer);
      var outcome := imageLoader.HandleResponse(request.url, response, decode);
      deliveries := deliveries + [Delivery(request.id, outcome)];
    }

    /** The main queue runs the oldest queued avatar completion; it reaches the item only if
        the item is still listed. */
    method DeliverNext()
      requires Valid() && deliveries != []
      modifies this
      ensures Valid()
      ensures deliveries == old(deliveries[1..])
      ensures items == ApplyCompletion(old(items), old(deliveries[0].id), old(deliveries[0].result))
      ensures stateChanges == old(stateChanges) +
        (if FirstIndexOf(old(items), old(deliveries[0].id)).Some? && old(deliveries[0].result.Success?) then 1 else 0)
      ensures offset == old(offset) && shouldLoad == old(shouldLoad) && footer == old(footer)
      ensures nextId == old(nextId) && pageFetches == old(pageFetches)
      ensures awaitingLookup == old(awaitingLookup) && awaitingAnswer == old(awaitingAnswer)
    {
      var d := deliveries[0];
      deliveries := deliveries[1..];
      assert forall e :: e in deliveries ==> e in old(deliveries);
      AvatarCompletion(d.id, d.result);
    }

    /** `tableView(_:numberOfRowsInSection:)`: one row per item, plus exactly one extra row
        while loading is off. */
    function NumberOfRows(): (n: nat)
      reads this
      ensures |items| <= n <= |items| + 1
      ensures n > |items| <==> !shouldLoad
    {
      if !shouldLoad then |items| + 1 else |items|
    }

    /** What `tableView(_:cellForRowAt:)` shows in a row the table asks for: every row below
        the item count shows that item, so the item lookup never goes out of bounds, and the
        extra row shows the footer if there is one and a blank cell otherwise. */
    function CellForRow(row: nat): (r: Row)
      reads this
      requires row < NumberOfRows()
      ensures r.ItemRow? ==> r.index == row && row < |items|
      ensures !r.ItemRow? <==> !shouldLoad && row == |items|
      ensures r.FooterRow? <==> !shouldLoad && row == |items| && footer.Some?
      ensures r.FooterRow? ==> footer == Some(r.reviewCount)
    {
      if !shouldLoad && row == |items| then
        match footer
        case Some(count) => FooterRow(count)
        case None => BlankRow
      else ItemRow(row)
    }

    /** `tableView(_:heightForRowAt:)`: the blank extra row is 30 points high; the height of
        an item or of the footer comes from its layout, given as `layoutHeight`. */
    function HeightForRow(row: nat, layoutHeight: Row -> int): (h: int)
      reads this
      requires row < NumberOfRows()
      ensures CellForRow(row).BlankRow? ==> h == BlankRowHeight
      ensures !CellForRow(row).BlankRow? ==> h == layoutHeight(CellForRow(row))
    {
      var r := CellForRow(row);
      if r.BlankRow? then BlankRowHeight else layoutHeight(r)
    }
  }
}

=== FILE: scenarios.dfy ===
/** Concrete runs of the view model and the image loader, each driven only through the
    contracts of their methods. */
module ReviewsScenarios {
  import opened Wrappers
  import opened ReviewModel
  import opened Images
  import opened ReviewsScreen

  /** One `getReviews` round trip, answered by `page` out of `count` reviews. */
  method LoadPage(vm: ReviewsViewModel, page: seq<Review>, count: int)
    requires vm.Valid() && vm.shouldLoad && vm.pageFetches == []
    modifies vm
    ensures vm.Valid() && vm.pageFetches == [] && vm.footer == old(vm.footer)
    ensures |vm.items| == old(|vm.items|) + |page| && vm.offset == old(vm.offset) + vm.limit
    ensures vm.shouldLoad == (vm.offset < count)
  {
    vm.GetReviews();
    assert vm.pageFetches == [PageFetch(old(vm.offset), Load)];
    vm.GetReviewsCompleted(0, Page(page, count));
  }

  /** Pages of 20 out of 45 reviews: three loads list 20, 40 and 45 items. The offset
      advances by the page size every time, so it ends at 60, past the count; loading then
      stays off, and the next `getReviews` creates the footer for 45 reviews. */
  method PagingScenario(first: seq<Review>, second: seq<Review>, third: seq<Review>,
                        parseUrl: string -> Option<Url>)
    returns (itemCounts: seq<nat>, offsets: seq<int>, footer: Option<int>, rows: nat)
    requires |first| == 20 && |second| == 20 && |third| == 5
    ensures itemCounts == [20, 40, 45] && offsets == [20, 40, 60]
    ensures footer == Some(45) && rows == 46
  {
    var vm := new ReviewsViewModel(0, 20, true, None, parseUrl, 3);
    LoadPage(vm, first, 45);
    itemCounts, offsets := [|vm.items|], [vm.offset];
    LoadPage(vm, second, 45);
    itemCounts, offsets := itemCounts + [|vm.items|], offsets + [vm.offset];
    LoadPage(vm, third, 45);
    itemCounts, offsets := itemCounts + [|vm.items|], offsets + [vm.offset];
    assert vm.CellForRow(45) == BlankRow;
    vm.GetReviews();
    footer, rows := vm.footer, vm.NumberOfRows();
  }

  /** A failed first page leaves the list empty at offset zero, and the next `getReviews`
      asks for offset zero again. */
  method RetryScenario(parseUrl: string -> Option<Url>)
    returns (itemCount: nat, offset: int, requests: seq<PageFetch>)
    ensures itemCount == 0 && offset == 0 && requests == [PageFetch(0, Load)]
  {
    var vm := new ReviewsViewModel(0, 20, true, None, parseUrl, 3);
    vm.GetReviews();
    vm.GetReviewsCompleted(0, Failed(ProviderError));
    itemCount, offset := |vm.items|, vm.offset;
    vm.GetReviews();
    requests := vm.pageFetches;
  }

  /** A second `getReviews` while the first is still loading issues nothing, but it does
      create the footer, counting the items listed so far (none). */
  method FooterWhileLoadingScenario(parseUrl: string -> Option<Url>)
    returns (requests: seq<PageFetch>, footer: Option<int>)
    ensures requests == [PageFetch(0, Load)] && footer == Some(0)
  {
    var vm := new ReviewsViewModel(0, 20, true, None, parseUrl, 3);
    vm.GetReviews();
    vm.GetReviews();
    requests, footer := vm.pageFetches, vm.footer;
  }

  /** `refreshReviews` after one page asks the provider for offset 20, not 0, and the list
      keeps its items until the answer arrives; the answer then becomes the whole list. */
  method RefreshScenario(first: seq<Review>, second: seq<Review>, parseUrl: string -> Option<Url>)
    returns (request: PageFetch, itemsWhilePending: nat, itemsAfter: nat, offsetAfter: int)
    requires |first| == 20 && |second| == 20
    ensures request == PageFetch(20, Refresh)
    ensures itemsWhilePending == 20 && itemsAfter == 20 && offsetAfter == 20
  {
    var vm := new ReviewsViewModel(0, 20, true, None, parseUrl, 3);
    vm.GetReviews();
    vm.GetReviewsCompleted(0, Page(first, 45));
    vm.RefreshReviews();
    request, itemsWhilePending := vm.pageFetches[0], |vm.items|;
    vm.RefreshReviewsCompleted(0, Page(second, 45));
    itemsAfter, offsetAfter := |vm.items|, vm.offset;
  }

  /** A `getReviews` request at offset 0 is still in flight when a refresh, also asked at
      offset 0, completes with `page`; loading is then back on and `getReviews` sends a
      second request, for offset 20. */
  method RefreshDuringLoad(vm: ReviewsViewModel, page: seq<Review>)
    requires vm.Valid() && vm.items == [] && vm.offset == 0 && vm.limit == 20 && vm.shouldLoad
    requires vm.pageFetches == []
    modifies vm
    ensures vm.Valid() && vm.offset == 20 && |vm.items| == |page|
    ensures vm.pageFetches == [PageFetch(0, Load), PageFetch(20, Load)]
  {
    vm.GetReviews();
    vm.RefreshReviews();
    assert vm.pageFetches == [PageFetch(0, Load), PageFetch(0, Refresh)];
    vm.RefreshReviewsCompleted(1, Page(page, 45));
    assert vm.pageFetches == [PageFetch(0, Load)];
    vm.GetReviews();
  }

  /** A refresh that completes while a `getReviews` request is in flight turns loading back
      on, so a second `getReviews` request goes out beside the first. When the first one's
      answer (the page at offset 0) arrives, it is appended to the refreshed list too. */
  method RefreshRaceScenario(page: seq<Review>, parseUrl: string -> Option<Url>)
    returns (loadsInFlight: nat, itemCount: nat, offset: int)
    requires |page| == 20
    ensures loadsInFlight == 2
    ensures itemCount == 40 && offset == 40
  {
    var vm := new ReviewsViewModel(0, 20, true, None, parseUrl, 3);
    RefreshDuringLoad(vm, page);
    assert [PageFetch(0, Load)][1..] == [] && [PageFetch(20, Load)][1..] == [];
    CountLoadsAppend([PageFetch(0, Load)], [PageFetch(20, Load)]);
    assert [PageFetch(0, Load)] + [PageFetch(20, Load)] == vm.pageFetches;
    loadsInFlight := vm.LoadsInFlight();
    vm.GetReviewsCompleted(0, Page(page, 45));
    itemCount, offset := |vm.items|, vm.offset;
  }

  /** A listed item whose avatar loads: its cache lookup misses, its data task answers with
      a decodable image, and once the main queue delivers it there is one more state change
      and that item shows the image. */
  method AvatarScenario(review: Review, bytes: Bytes, image: Image)
    returns (stateChanges: nat, avatar: Avatar)
    requires review.avatarUrl == Some("https://example.org/a.png")
    ensures stateChanges == 2 && avatar == Loaded(image)
  {
    var url := Url("https://example.org/a.png");
    var vm := new ReviewsViewModel(0, 20, true, None, s => Some(Url(s)), 3);
    assert AvatarUrl(review, vm.parseUrl) == Some(url);
    LoadOneReview(vm, review, url);
    vm.AvatarLookup(0);
    var response := Response(Some(bytes), Some(200), false);
    var decode := (b: Bytes) => Some(image);
    assert Classify(response, decode) == Success(image);
    vm.AvatarResponse(0, response, decode);
    assert vm.deliveries == [Delivery(0, Success(image))];
    vm.DeliverNext();
    stateChanges, avatar := vm.stateChanges, vm.items[0].avatarImage;
  }

  /** A first page holding just `review`, whose avatar URL parses as `url`. */
  method LoadOneReview(vm: ReviewsViewModel, review: Review, url: Url)
    requires vm.Valid() && vm.items == [] && vm.nextId == 0 && vm.shouldLoad
    requires vm.pageFetches == [] && vm.awaitingLookup == [] && vm.stateChanges == 0
    requires vm.awaitingAnswer == [] && vm.deliveries == []
    requires AvatarUrl(review, vm.parseUrl) == Some(url)
    modifies vm
    ensures vm.Valid() && |vm.items| == 1 && vm.items[0].id == 0 && vm.stateChanges == 1
    ensures vm.awaitingLookup == [AvatarFetch(0, url)]
    ensures vm.awaitingAnswer == [] && vm.deliveries == []
  {
    AvatarFetchesOfOne(review, vm.parseUrl, url);
    vm.GetReviews();
    assert vm.pageFetches == [PageFetch(old(vm.offset), Load)];
    vm.GetReviewsCompleted(0, Page([review], 1));
  }

  lemma AvatarFetchesOfOne(review: Review, parseUrl: string -> Option<Url>, url: Url)
    requires AvatarUrl(review, parseUrl) == Some(url)
    ensures AvatarFetches([review], 0, parseUrl) == [AvatarFetch(0, url)]
  {
    assert [review][1..] == [];
  }

  /** Two records sharing an avatar URL, each answered with a decodable image. Both cache
      lookups run before either answer is stored, so neither finds the other's image: the
      page and the two avatars notify three times in all, and both items show the image. */
  method SharedUrlScenario(first: Review, second: Review, bytes: Bytes, image: Image)
    returns (stateChanges: nat, avatars: seq<Avatar>)
    requires first.avatarUrl == Some("https://example.org/a.png")
    requires second.avatarUrl == Some("https://example.org/a.png")
    ensures stateChanges == 3 && avatars == [Loaded(image), Loaded(image)]
  {
    var url := Url("https://example.org/a.png");
    var vm := new ReviewsViewModel(0, 20, true, None, s => Some(Url(s)), 3);
    LoadTwoReviews(vm, first, second, url);
    LookUpBoth(vm, url);
    var response := Response(Some(bytes), Some(200), false);
    var decode := (b: Bytes) => Some(image);
    assert Classify(response, decode) == Success(image);
    AnswerBoth(vm, url, response, decode);
    DeliverBoth(vm, image);
    stateChanges, avatars := vm.stateChanges, [vm.items[0].avatarImage, vm.items[1].avatarImage];
  }

  /** A first page holding `first` and `second`, whose avatar URLs both parse as `url`. */
  method LoadTwoReviews(vm: ReviewsViewModel, first: Review, second: Review, url: Url)
    requires vm.Valid() && vm.items == [] && vm.nextId == 0 && vm.shouldLoad
    requires vm.pageFetches == [] && vm.awaitingLookup == [] && vm.stateChanges == 0
    requires vm.awaitingAnswer == [] && vm.deliveries == []
    requires AvatarUrl(first, vm.parseUrl) == Some(url) && AvatarUrl(second, vm.parseUrl) == Some(url)
    modifies vm
    ensures vm.Valid() && |vm.items| == 2 && vm.items[0].id == 0 && vm.items[1].id == 1
    ensures vm.stateChanges == 1
    ensures vm.awaitingLookup == [AvatarFetch(0, url), AvatarFetch(1, url)]
    ensures vm.awaitingAnswer == [] && vm.deliveries == []
  {
    assert [first, second][1..] == [second];
    AvatarFetchesOfOne(second, vm.parseUrl, url);
    assert AvatarFetches([second], 1, vm.parseUrl) == [AvatarFetch(1, url)] by {
      assert [second][1..] == [];
    }
    vm.GetReviews();
    assert vm.pageFetches == [PageFetch(old(vm.offset), Load)];
    vm.GetReviewsCompleted(0, Page([first, second], 2));
  }

  /** The background blocks of both loads run while the cache is still empty. */
  method LookUpBoth(vm: ReviewsViewModel, url: Url)
    requires vm.Valid() && vm.imageLoader.cache == map[]
    requires vm.awaitingLookup == [AvatarFetch(0, url), AvatarFetch(1, url)]
    requires vm.awaitingAnswer == [] && vm.deliveries == []
    modifies vm
    ensures vm.Valid() && vm.items == old(vm.items) && vm.stateChanges == old(vm.stateChanges)
    ensures vm.awaitingAnswer == [AvatarFetch(0, url), AvatarFetch(1, url)] && vm.deliveries == []
  {
    vm.AvatarLookup(0);
    vm.AvatarLookup(0);
  }

  /** Both data tasks answer with `response`, which decodes to an image. */
  method AnswerBoth(vm: ReviewsViewModel, url: Url, response: Response, decode: Bytes -> Option<Image>)
    requires vm.Valid() && Classify(response, decode).Success?
    requires vm.awaitingAnswer == [AvatarFetch(0, url), AvatarFetch(1, url)] && vm.deliveries == []
    modifies vm, vm.imageLoader
    ensures vm.Valid() && vm.items == old(vm.items) && vm.stateChanges == old(vm.stateChanges)
    ensures vm.deliveries == [Delivery(0, Classify(response, decode)), Delivery(1, Classify(response, decode))]
  {
    vm.AvatarResponse(0, response, decode);
    vm.AvatarResponse(0, response, decode);
  }

  /** The main queue runs two queued successes for the listed items 0 and 1. */
  method DeliverBoth(vm: ReviewsViewModel, image: Image)
    requires vm.Valid() && |vm.items| == 2 && vm.items[0].id == 0 && vm.items[1].id == 1
    requires vm.deliveries == [Delivery(0, Success(image)), Delivery(1, Success(image))]
    modifies vm
    ensures vm.stateChanges == old(vm.stateChanges) + 2
    ensures |vm.items| == 2 && vm.items[0].avatarImage == Loaded(image) && vm.items[1].avatarImage == Loaded(image)
  {
    assert FirstIndexOf(vm.items, 0) == Some(0);
    vm.DeliverNext();
    assert FirstIndexOf(vm.items, 1) == Some(1);
    vm.DeliverNext();
  }

  /** A cached URL is still fetched: the loader delivers the cached image and then the
      network's outcome, here a server error. */
  method CacheHitScenario(url: Url, bytes: Bytes, image: Image)
    returns (delivered: seq<Result<Image, LoaderError>>)
    ensures delivered == [Success(image), Failure(LoadingError)]
  {
    var loader := new ImageLoader();
    var first := loader.AsyncFetchImage(url, Response(Some(bytes), Some(200), false), b => Some(image));
    delivered := loader.AsyncFetchImage(url, Response(Some(bytes), Some(500), false), b => Some(image));
  }
}

=== FILE: wrappers.dfy ===
/** Optional values and success/failure results, shared by the other modules. */
module Wrappers {

  /** Swift's `Optional`: `None` stands for `nil`. */
  datatype Option<+T> = None | Some(value: T)

  /** Swift's `Result<Success, Failure>`. */
  datatype Result<+R, +E> = Success(value: R) | Failure(error: E)
}
